=== FILE: README.md ===
# AutoCare vehicle page: maintenance scheduler and vehicle list

A Dafny model of the domain logic of the AutoCare front end's vehicle page
(`src/pages/VehiclePage.jsx`).

- **The maintenance-due scheduler.** `calculateUpcomingServices` takes the
  page's fixed service catalog (oil change every 10000 km, tire rotation every
  15000 km, and so on). For each entry it works out:
  - the odometer value at which the entry is next due (the next multiple of
    its interval strictly above the last-service mileage);
  - the signed distance `dueIn` from the current mileage;
  - a badge: `Overdue` when `dueIn <= 0`, `Due Soon` within 1000 km,
    `Upcoming` otherwise.

  It keeps the entries due within 5000 km and sorts them most urgent first.
  `Array.prototype.sort` is stable since ECMAScript 2019 (section 22.1.3.27 of
  ECMA-262, 10th edition), so entries with equal `dueIn` stay in catalog order.
- **The vehicle list**, keyed by registration number:
  - adding a vehicle, refused when its number is already listed;
  - editing the selected vehicle (the registration field is disabled while
    editing);
  - deleting by number;
  - the urgent banner and the overdue and due-soon counts that the list view
    derives from the scheduler's output.

Files and modules:

- `wrappers.dfy` (`Wrappers`): `Option`, for a form field that may be missing.
- `sequences.dfy` (`Sequences`): `Filter`, the model of `Array.prototype.filter`,
  and the subsequence relation.
- `service_catalog.dfy` (`ServiceCatalog`): the catalog, the due-odometer
  arithmetic, the badge, and the annotation of one entry and of the whole
  catalog.
- `stable_sort.dfy` (`StableSort`): the stable insertion sort by `dueIn`, with
  its sortedness, permutation, stability and uniqueness results.
- `upcoming.dfy` (`Upcoming`): `calculateUpcomingServices` with the threshold
  and horizon as a `Policy` (the page uses 1000 and 5000), and the urgent flag
  and counts.
- `vehicles.dfy` (`Vehicles`): the vehicle record and the add, edit and delete
  list transformations.
- `page.dfy` (`VehiclePage`): the page's interaction state (form, selected
  vehicle, editing and details flags, active tab) and how each button and
  submission changes it, as written and with the edit keyed on the form.

The scheduler's inputs are modelled after the source's numeric coercion. Each
of `mileage` and `lastServiceMileage` is an `Option<int>`, where `None` is a
missing or empty field. A missing current mileage yields no services (line 61).
A missing last-service mileage counts as 0 (line 64).

Dafny's `/` with a positive divisor rounds down, as `Math.floor` does, also for
negative operands. So the next due value is always strictly above the
last-service mileage, including when that mileage is an exact multiple of the
interval. Negative readings are not clamped, because the source does not
clamp them.

## Model

| member | source | states |
|---|---|---|
| ServiceCatalog.ServiceScheduleWellFormed | src/pages/VehiclePage.jsx:6-13 | The page's catalog has positive intervals and distinct ids. |
| ServiceCatalog.NextServiceAt | src/pages/VehiclePage.jsx:68-69 | The next due odometer value is a multiple of the interval. It is strictly above the last-service mileage and at most one interval above it. It is positive when that mileage is non-negative. |
| ServiceCatalog.NextServiceAtIsLeast | src/pages/VehiclePage.jsx:68-69 | No multiple of the interval lies strictly above the last-service mileage and below the next due value. |
| ServiceCatalog.Classify | src/pages/VehiclePage.jsx:76-77 | Overdue iff `dueIn <= 0`. Due Soon iff `0 < dueIn <= threshold`. Upcoming iff `dueIn` exceeds both 0 and the threshold. |
| ServiceCatalog.Project | src/pages/VehiclePage.jsx:67-78 | An annotated entry carries its catalog entry unchanged. Its next due value is an aligned value above the last service. `dueIn` is that value minus the current mileage. The badge follows the three `dueIn` ranges. |
| ServiceCatalog.MileageShift | src/pages/VehiclePage.jsx:63-77 | Driving `delta` km more leaves the due value unchanged and lowers `dueIn` by exactly `delta`. The badge never becomes less pressing. |
| ServiceCatalog.FiveThousandKmScenarios | src/pages/VehiclePage.jsx:68-77 | For a 5000 km service, three cases. At 15000 km after a service at 10000 km, it is due at 15000 and overdue by 0. At 14500 km it is due soon, in 500 km. At 8000 km after a service at 3000 km, it was due at 5000 and is 3000 km overdue. |
| ServiceCatalog.ProjectAll | src/pages/VehiclePage.jsx:66-79 | The `map` step: one annotated record per catalog entry, in catalog order. |
| ServiceCatalog.ProjectAllOccursOnce | src/pages/VehiclePage.jsx:66-79 | When catalog ids are distinct, each entry's annotation occurs exactly once in the mapped list. |
| StableSort.Insert | src/pages/VehiclePage.jsx:81 | Inserting into a sorted list gives a sorted list. The result holds exactly the old elements plus the new one. |
| StableSort.SortByDueIn | src/pages/VehiclePage.jsx:81 | The sort returns a permutation of its input ordered by non-decreasing `dueIn`. |
| StableSort.SortStable | src/pages/VehiclePage.jsx:81 | For every distance `k`, the entries due in `k` km appear in the same relative order after the sort as before it. |
| StableSort.SortedStableUnique | src/pages/VehiclePage.jsx:81 | Two sorted lists are equal when their entries for each `dueIn` value appear in the same order. |
| StableSort.SortCharacterization | src/pages/VehiclePage.jsx:81 | A list is the sort's output iff it is sorted and keeps every equal-`dueIn` group in input order. The output is thus fully determined by `dueIn` and then catalog order. |
| Upcoming.Candidates | src/pages/VehiclePage.jsx:66-80 | The filter step keeps an entry's annotation iff its `dueIn` is within the horizon. Every kept record is the annotation of some catalog entry, and the kept records are a subsequence of the annotated catalog, so catalog order is kept. The result is never longer than the catalog. |
| Upcoming.LastServiceMileage | src/pages/VehiclePage.jsx:64 | A missing last-service reading counts as 0. A present reading is used unchanged. |
| Upcoming.CalculateUpcomingServices | src/pages/VehiclePage.jsx:60-82 | No vehicle, or no mileage, gives the empty list whatever the catalog holds. Otherwise the output is sorted by `dueIn`, every entry is within the horizon, and it is never longer than the catalog. |
| Upcoming.PageUpcomingServices | src/pages/VehiclePage.jsx:60-82 | With the page's catalog and constants, at most six services are listed, each due within 5000 km. |
| Upcoming.UpcomingEntries | src/pages/VehiclePage.jsx:72-78 | Every listed record is a catalog entry, unchanged, with the annotation computed for this vehicle. |
| Upcoming.UpcomingExact | src/pages/VehiclePage.jsx:80 | A catalog entry is listed iff its `dueIn` is within the horizon. With distinct ids, a listed entry appears exactly once. |
| Upcoming.UpcomingOrder | src/pages/VehiclePage.jsx:81 | The output is a permutation of the filtered catalog. Entries due in the same distance keep their catalog order. |
| Upcoming.HasUrgentServices | src/pages/VehiclePage.jsx:430 | The urgent flag holds iff some listed service is not merely Upcoming, that is, it is Overdue or Due Soon. A flagged list is non-empty. |
| Upcoming.CountStatus | src/pages/VehiclePage.jsx:471-472 | The count of services with a given badge equals the number of times that badge occurs in the list. So it is at most the list length, and zero iff no listed service carries that badge. |
| Upcoming.UrgentCounts | src/pages/VehiclePage.jsx:430-472 | The overdue count plus the due-soon count never exceeds the list length. The urgent banner shows iff that sum is positive. |
| Upcoming.UrgentIffDueWithinThreshold | src/pages/VehiclePage.jsx:430 | When `0 <= threshold <= horizon`, a vehicle is flagged urgent iff some catalog service is due within the threshold. |
| Upcoming.StaysListedAsMileageGrows | src/pages/VehiclePage.jsx:63-80 | A listed service stays listed as the odometer advances, due `delta` km sooner and with a badge at least as pressing. |
| Upcoming.PageExample | src/pages/VehiclePage.jsx:60-82 | A car at 15000 km, last serviced at 10000 km, gets three services in this order: tire rotation (overdue, due in 0), oil change (due in 5000), brake inspection (due in 5000). The two equal entries stay in catalog order. |
| Vehicles.HasRegNo | src/pages/VehiclePage.jsx:132 | The duplicate check holds iff some stored vehicle carries the registration number. It never holds for the empty list. |
| Vehicles.AddVehicle | src/pages/VehiclePage.jsx:132-136 | A duplicate registration number leaves the list unchanged. Otherwise the vehicle is appended after the untouched earlier entries. The registration numbers present afterwards are the old ones plus the new one, and uniqueness is kept. |
| Vehicles.EditVehicle | src/pages/VehiclePage.jsx:123 | The list keeps its length and order. Exactly the entries with the selected number are replaced by the form's record. When the form keeps the number, every position keeps its number. |
| Vehicles.EditKeepsKeys | src/pages/VehiclePage.jsx:123 | When the submitted record carries the selected vehicle's number, an edit keeps the same set of registration numbers and keeps them unique. The page does not always meet this premise (see Findings). |
| Vehicles.EditReplacesOne | src/pages/VehiclePage.jsx:123 | With unique numbers, an edit changes at most one position. |
| Vehicles.EditWithChangedRegNoCanDuplicate | src/pages/VehiclePage.jsx:123 | When the submitted record carries another number than the selected vehicle's, an edit can create a duplicate: two vehicles, and one replaced by a record with the other's number. |
| Vehicles.DeleteVehicle | src/pages/VehiclePage.jsx:169 | The deleted number is gone and every other number is still present. Each vehicle with another number keeps its multiplicity. The rest stay in their original order. |
| Vehicles.DeleteKeepsUnique | src/pages/VehiclePage.jsx:169 | Deleting keeps registration numbers unique. |
| VehiclePage.ResetForm | src/pages/VehiclePage.jsx:143-157 | The form is blank, editing is off and nothing is selected. The list, the details modal and the tab are left as they were. |
| VehiclePage.Submit | src/pages/VehiclePage.jsx:119-140 | While editing, the list becomes `EditVehicle` keyed on the SELECTED vehicle's number, with the form as the replacement, and the form is reset. Outside editing, the list becomes `AddVehicle` of the form. A taken number leaves the whole page unchanged; otherwise the form is reset. Editing always comes with a selection. |
| VehiclePage.Other | src/pages/VehiclePage.jsx:160-182 | Only a confirmed delete changes the list, and then to `DeleteVehicle`. "Edit" loads the vehicle into the form and selects it for editing. "Details" selects a vehicle but leaves the editing flag and the form as they were. Typing while editing keeps the form's number. |
| VehiclePage.Step | src/pages/VehiclePage.jsx:113-182 | Every action keeps "editing implies a selection", and only a submission or a confirmed delete changes the list. |
| VehiclePage.StaleSelectionDuplicates | src/pages/VehiclePage.jsx:123 | From a list of two filled-in vehicles "A" and "B": Edit "A", the list tab, Details "B", close, "Add New", submit. Every action is on screen when taken, and the submitted form passes the browser's required-field check. The list becomes "A", "A", which breaks uniqueness. The corrected page leaves "A", "B". |
| VehiclePage.SubmitFixed | src/pages/VehiclePage.jsx:122-123 | While editing, the list becomes `EditVehicle` keyed on the FORM's own number, with the form as the replacement, and the form is reset. The set of registration numbers is kept. Outside editing it behaves exactly like the page. Uniqueness is kept either way. |
| VehiclePage.StepFixed | src/pages/VehiclePage.jsx:113-182 | On the corrected page every action keeps registration numbers unique. |
| VehiclePage.RunFixedKeepsUnique | src/pages/VehiclePage.jsx:113-182 | On the corrected page no sequence of actions ever duplicates a registration number. |
| VehiclePage.FixedAgreesWhileSelectionMatches | src/pages/VehiclePage.jsx:122-127 | While the selection and the form carry the same number, the correction behaves exactly like the page. |

## Findings

| source | as written | input that shows it | evidently intended | confidence | as-written member | corrected member |
|---|---|---|---|---|---|---|
| src/pages/VehiclePage.jsx:123 | The edit replaces the vehicles whose number is `selectedVehicle.regNo`. "Details" (lines 177-182) changes `selectedVehicle` but leaves `isEditing` and `formData` alone, and neither the "Vehicle List" tab (214-219) nor "Add New" (419-421) resets the form. | Vehicles "A" and "B". Edit "A", the list tab, Details "B", close the modal, "Add New", submit. The list becomes "A", "A". | The edit replaces the vehicle the form was loaded from, whose number the disabled field (line 289) keeps in `formData.regNo`. | medium, not executed | VehiclePage.StaleSelectionDuplicates | VehiclePage.SubmitFixed |

## Left out

- Rendering is not modelled: JSX, tab styling, the modal's layout and the `getStatusColor` class strings are presentation only.
- The form's `required` and `min` attributes are modelled by `VehiclePage.FormComplete`, which a submission must meet. The year's `min="1900"` is not, because the year is kept as text.
- The form's "Cancel" button (lines 378-384) is `CancelClicked`. It resets the form and stays on the form tab, so on that tab it does what the "Add Vehicle" tab does.
- The `localStorage` load and save effects (lines 85-103) are not modelled. They are browser I/O driven by React hooks.
- `window.confirm` and `alert` (lines 133, 168, 659) are UI side effects. `DeleteVehicle` is the list after a confirmed deletion. The alert path of an add is the case where `AddVehicle` returns the list unchanged.
- The page's upcoming-services state and its recomputation for the viewed vehicle (lines 105-110, 126-130, 180) are not modelled. `calculateUpcomingServices` itself is.
- The modal's "Edit Vehicle" button (lines 649-652) is not a separate action. It closes the modal and then does what a list "Edit" does.
- The "Add Service" button (lines 657-664) only shows an alert, and `setServiceHistory` (line 179) only loads the mock history below. Neither is modelled.
- VehiclePage.Enabled does not treat the details modal as covering the list. Its buttons count as on screen while the modal is open.
- The mock service history and `cost.toFixed(2)` (lines 38-57, 627) are static data and float formatting.
- `parseInt` and JavaScript truthiness are not modelled. Inputs are already-coerced `Option<int>` values. This has two consequences.
  - A present but non-numeric mileage becomes 0 at line 63. The caller passes `Some(0)` for it.
  - A mileage stored as the number 0 is falsy and yields `[]` at line 61. Form values are strings, and the string "0" is truthy, so the model treats `Some(0)` as present.
- JavaScript numbers are doubles. The model uses unbounded integers and does not model precision loss above 2^53.
- Upcoming.CalculateUpcomingServices: requires every catalog interval to be positive. The page's catalog meets this (`ServiceScheduleWellFormed`). A zero interval would make the source divide by zero and produce NaN or Infinity, which the model does not represent.
- Vehicles.EditKeepsKeys: its premise, that the submitted record carries the selected number, holds right after an "Edit" click but not on every path the page allows (see Findings).
- Upcoming.UrgentIffDueWithinThreshold: assumes `0 <= threshold <= horizon`, which the page's 1000 and 5000 satisfy. With a negative threshold an overdue entry can lie above the threshold.
- src/components/Navbar.jsx is not part of this model. It is static markup.
- src/api/auth.js is not part of this model. It is HTTP calls through the `apiClient` module (`./client`), plus token storage.
- src/App.jsx is not part of this model. It is component composition only.

=== FILE: page.dfy ===
/**
 * The page's interaction state around the vehicle list: the form, the
 * selected vehicle, the editing and details flags and the active tab, and how
 * each button or submission changes them. This is where the list operations of
 * `Vehicles` are driven from, and where an edit's key comes from.
 */
module VehiclePage {
  import opened Wrappers
  import opened Vehicles

  datatype Tab = ListView | FormView

  /** What the page holds between two user actions. */
  datatype Page = Page(
    vehicles: seq<Vehicle>,
    form: Vehicle,
    selected: Option<Vehicle>,
    editing: bool,
    viewing: bool,
    tab: Tab)

  /** One user action on the page. */
  datatype Event =
    | ListTabClicked              // the "Vehicle List" tab
    | AddTabClicked               // the "Add Vehicle" tab, which also clears the form
    | AddNewClicked               // the "Add New" button above the list
    | EditClicked(v: Vehicle)     // a vehicle's "Edit" button
    | DetailsClicked(v: Vehicle)  // a vehicle's "Details" button
    | CloseDetails                // closing the details modal
    | FieldsChanged(f: Vehicle)   // typing into the form
    | CancelClicked               // the form's "Cancel" button
    | Submitted                   // submitting the form
    | DeleteConfirmed(regNo: string)  // a confirmed "Delete"

  /** The blank form: fuel type petrol, colour blue, every other field empty. */
  const EmptyForm := Vehicle("", "", "", "", "petrol", "#3b82f6", None, None, "")

  /** The page when it opens, with the list read back from storage. */
  function Initial(vs: seq<Vehicle>): (p: Page)
    ensures p.vehicles == vs && p.form == EmptyForm && p.selected.None?
    ensures !p.editing && !p.viewing && p.tab == ListView
  {
    Page(vs, EmptyForm, None, false, false, ListView)
  }

  /** Whenever the page is editing, some vehicle is selected. */
  predicate Consistent(p: Page) {
    p.editing ==> p.selected.Some?
  }

  /** The blank form, not editing, nothing selected; the list, modal and tab stay. */
  function ResetForm(p: Page): (r: Page)
    ensures r.form == EmptyForm && !r.editing && r.selected.None?
    ensures r.vehicles == p.vehicles && r.viewing == p.viewing && r.tab == p.tab
  {
    p.(form := EmptyForm, editing := false, selected := None)
  }

  /**
   * The browser's own check of the form's `required` and `min` fields before it
   * lets a submission through: make, model, year, registration number, fuel
   * type and a current mileage of at least 0 are filled in, and a last-service
   * mileage, when given, is at least 0.
   */
  predicate FormComplete(f: Vehicle) {
    && f.make != "" && f.model != "" && f.year != "" && f.regNo != "" && f.fuelType != ""
    && f.mileage.Some? && f.mileage.value >= 0
    && (f.lastServiceMileage.Some? ==> f.lastServiceMileage.value >= 0)
  }

  /**
   * Whether the control behind `e` is on screen: the list's buttons on the list
   * tab, the form on the form tab, the close button while the modal is open. A
   * submission also needs the form to pass the browser's field check.
   */
  predicate Enabled(p: Page, e: Event) {
    match e
    case ListTabClicked => true
    case AddTabClicked => true
    case AddNewClicked => p.tab == ListView
    case EditClicked(v) => p.tab == ListView && v in p.vehicles
    case DetailsClicked(v) => p.tab == ListView && v in p.vehicles
    case CloseDetails => p.viewing
    case FieldsChanged(_) => p.tab == FormView
    case CancelClicked => p.tab == FormView
    case Submitted => p.tab == FormView && FormComplete(p.form)
    case DeleteConfirmed(regNo) => p.tab == ListView && HasRegNo(p.vehicles, regNo)
  }

  /**
   * Submitting the form as the page does it. While editing, the vehicles
   * carrying the SELECTED vehicle's number are replaced by the form; otherwise
   * the form is added unless its number is taken, in which case nothing changes.
   */
  function Submit(p: Page): (r: Page)
    requires Consistent(p)
    ensures Consistent(r)
    ensures p.editing ==> r.vehicles == EditVehicle(p.vehicles, p.selected.value.regNo, p.form)
    ensures !p.editing ==> r.vehicles == AddVehicle(p.vehicles, p.form)
    ensures p.editing || !HasRegNo(p.vehicles, p.form.regNo) ==> !r.editing && r.form == EmptyForm && r.selected.None?
    ensures !p.editing && HasRegNo(p.vehicles, p.form.regNo) ==> r == p
  {
    if p.editing then ResetForm(p.(vehicles := EditVehicle(p.vehicles, p.selected.value.regNo, p.form)))
    else if HasRegNo(p.vehicles, p.form.regNo) then p
    else ResetForm(p.(vehicles := AddVehicle(p.vehicles, p.form)))
  }

  /**
   * Submitting the form with the edit keyed on the form's own number, which is
   * the number of the vehicle the form was loaded from (the field is disabled
   * while editing). Adding is unchanged.
   */
  function SubmitFixed(p: Page): (r: Page)
    requires Consistent(p)
    ensures Consistent(r)
    ensures forall regNo :: HasRegNo(r.vehicles, regNo) <==> HasRegNo(p.vehicles, regNo) || (!p.editing && regNo == p.form.regNo)
    ensures UniqueRegNos(p.vehicles) ==> UniqueRegNos(r.vehicles)
    ensures p.editing ==> r.vehicles == EditVehicle(p.vehicles, p.form.regNo, p.form)
    ensures p.editing ==> !r.editing && r.form == EmptyForm && r.selected.None?
    ensures !p.editing ==> r == Submit(p)
  {
    if p.editing then
      EditKeepsKeys(p.vehicles, p.form.regNo, p.form);
      ResetForm(p.(vehicles := EditVehicle(p.vehicles, p.form.regNo, p.form)))
    else Submit(p)
  }

  /** The rest of the page's reactions, shared by the page as written and as corrected. */
  function Other(p: Page, e: Event): (r: Page)
    requires Consistent(p) && !e.Submitted?
    ensures Consistent(r)
    ensures !e.DeleteConfirmed? ==> r.vehicles == p.vehicles
    ensures e.DeleteConfirmed? ==> r.vehicles == DeleteVehicle(p.vehicles, e.regNo)
    ensures e.EditClicked? ==> r.editing && r.selected == Some(e.v) && r.form == e.v
    ensures e.DetailsClicked? ==> r.viewing && r.selected == Some(e.v) && r.editing == p.editing && r.form == p.form
    ensures e.FieldsChanged? && p.editing ==> r.form.regNo == p.form.regNo
  {
    match e
    case ListTabClicked => p.(tab := ListView)
    case AddTabClicked => ResetForm(p).(tab := FormView)
    case AddNewClicked => p.(tab := FormView)
    case EditClicked(v) => p.(form := v, selected := Some(v), editing := true, tab := FormView)
    case DetailsClicked(v) => p.(selected := Some(v), viewing := true)
    case CloseDetails => p.(viewing := false)
    case FieldsChanged(f) => p.(form := if p.editing then f.(regNo := p.form.regNo) else f)
    case CancelClicked => ResetForm(p)
    case DeleteConfirmed(regNo) =>
      var q := p.(vehicles := DeleteVehicle(p.vehicles, regNo));
      if p.selected.Some? && p.selected.value.regNo == regNo then ResetForm(q).(viewing := false) else q
  }

  /** One action on the page as written. Only a submission or a deletion changes the list. */
  function Step(p: Page, e: Event): (r: Page)
    requires Consistent(p)
    ensures Consistent(r)
    ensures !e.Submitted? && !e.DeleteConfirmed? ==> r.vehicles == p.vehicles
  {
    if e.Submitted? then Submit(p) else Other(p, e)
  }

  /** One action on the corrected page. Every action keeps registration numbers unique. */
  function StepFixed(p: Page, e: Event): (r: Page)
    requires Consistent(p)
    ensures Consistent(r)
    ensures UniqueRegNos(p.vehicles) ==> UniqueRegNos(r.vehicles)
  {
    if e.Submitted? then SubmitFixed(p)
    else
      if e.DeleteConfirmed? && UniqueRegNos(p.vehicles) then
        DeleteKeepsUnique(p.vehicles, e.regNo);
        Other(p, e)
      else Other(p, e)
  }

  /** A sequence of actions on the page as written. */
  function Run(p: Page, es: seq<Event>): (r: Page)
    requires Consistent(p)
    ensures Consistent(r)
    decreases |es|
  {
    if es == [] then p else Run(Step(p, es[0]), es[1..])
  }

  /** A sequence of actions on the corrected page. */
  function RunFixed(p: Page, es: seq<Event>): (r: Page)
    requires Consistent(p)
    ensures Consistent(r)
    decreases |es|
  {
    if es == [] then p else RunFixed(StepFixed(p, es[0]), es[1..])
  }

  /** Every action in `es` is on screen when it happens. */
  predicate Trace(p: Page, es: seq<Event>)
    requires Consistent(p)
    decreases |es|
  {
    es == [] || (Enabled(p, es[0]) && Trace(Step(p, es[0]), es[1..]))
  }

  /** On the corrected page, no sequence of actions ever duplicates a registration number. */
  lemma {:induction false} RunFixedKeepsUnique(p: Page, es: seq<Event>)
    requires Consistent(p) && UniqueRegNos(p.vehicles)
    ensures UniqueRegNos(RunFixed(p, es).vehicles)
    decreases |es|
  {
    if es != [] {
      RunFixedKeepsUnique(StepFixed(p, es[0]), es[1..]);
    }
  }

  /**
   * The correction changes nothing while the selected vehicle and the form
   * carry the same number, which holds right after an "Edit" click.
   */
  lemma FixedAgreesWhileSelectionMatches(p: Page, e: Event)
    requires Consistent(p)
    requires p.editing ==> p.selected.value.regNo == p.form.regNo
    ensures StepFixed(p, e) == Step(p, e)
  {
  }

  /**
   * The page as written can duplicate a key with on-screen actions only: with
   * vehicles "A" and "B" listed, edit "A", go back to the list, open the details
   * of "B", close them, press "Add New" and submit. "Details" selects "B" but
   * leaves the editing flag and the form from "A", so the submission replaces
   * "B" by "A". The corrected page leaves the list as it was.
   */
  lemma StaleSelectionDuplicates()
    ensures var a := Vehicle("A", "Toyota", "Corolla", "2019", "petrol", "#3b82f6", Some(15000), Some(10000), "");
            var b := Vehicle("B", "Honda", "Civic", "2020", "petrol", "#ef4444", Some(8000), None, "");
            var es := [EditClicked(a), ListTabClicked, DetailsClicked(b), CloseDetails, AddNewClicked, Submitted];
            && UniqueRegNos(Initial([a, b]).vehicles)
            && Trace(Initial([a, b]), es)
            && Run(Initial([a, b]), es).vehicles == [a, a]
            && !UniqueRegNos(Run(Initial([a, b]), es).vehicles)
            && RunFixed(Initial([a, b]), es).vehicles == [a, b]
  {
    var a := Vehicle("A", "Toyota", "Corolla", "2019", "petrol", "#3b82f6", Some(15000), Some(10000), "");
    var b := Vehicle("B", "Honda", "Civic", "2020", "petrol", "#ef4444", Some(8000), None, "");
    StaleTrace(a, b);
    StaleRun(a, b);
    StaleRunFixed(a, b);
    assert !UniqueRegNos([a, a]) by {
      assert [a, a][0].regNo == [a, a][1].regNo;
    }
  }

  /** The pages the stale-selection actions pass through, up to the submission. */
  function StalePages(a: Vehicle, b: Vehicle): seq<Page> {
    [ Initial([a, b]),
      Page([a, b], a, Some(a), true, false, FormView),
      Page([a, b], a, Some(a), true, false, ListView),
      Page([a, b], a, Some(b), true, true, ListView),
      Page([a, b], a, Some(b), true, false, ListView),
      Page([a, b], a, Some(b), true, false, FormView) ]
  }

  lemma StaleSuffixes(a: Vehicle, b: Vehicle, es: seq<Event>)
    requires es == [EditClicked(a), ListTabClicked, DetailsClicked(b), CloseDetails, AddNewClicked, Submitted]
    ensures es[1..] == [ListTabClicked, DetailsClicked(b), CloseDetails, AddNewClicked, Submitted]
    ensures es[2..] == es[1..][1..] == [DetailsClicked(b), CloseDetails, AddNewClicked, Submitted]
    ensures es[3..] == es[2..][1..] == [CloseDetails, AddNewClicked, Submitted]
    ensures es[4..] == es[3..][1..] == [AddNewClicked, Submitted]
    ensures es[5..] == es[4..][1..] == [Submitted]
    ensures es[5..][1..] == []
  {
  }

  lemma StaleSteps(a: Vehicle, b: Vehicle)
    requires a.regNo == "A" && b.regNo == "B" && FormComplete(a)
    ensures var ps := StalePages(a, b);
            && Step(ps[0], EditClicked(a)) == ps[1] && Enabled(ps[0], EditClicked(a))
            && Step(ps[1], ListTabClicked) == ps[2] && Enabled(ps[1], ListTabClicked)
            && Step(ps[2], DetailsClicked(b)) == ps[3] && Enabled(ps[2], DetailsClicked(b))
            && Step(ps[3], CloseDetails) == ps[4] && Enabled(ps[3], CloseDetails)
            && Step(ps[4], AddNewClicked) == ps[5] && Enabled(ps[4], AddNewClicked)
            && Enabled(ps[5], Submitted)
            && Step(ps[5], Submitted).vehicles == [a, a]
  {
    assert EditVehicle([a, b], "B", a) == [a, a];
  }

  lemma StaleFixedSteps(a: Vehicle, b: Vehicle)
    requires a.regNo == "A" && b.regNo == "B"
    ensures var ps := StalePages(a, b);
            && StepFixed(ps[0], EditClicked(a)) == ps[1]
            && StepFixed(ps[1], ListTabClicked) == ps[2]
            && StepFixed(ps[2], DetailsClicked(b)) == ps[3]
            && StepFixed(ps[3], CloseDetails) == ps[4]
            && StepFixed(ps[4], AddNewClicked) == ps[5]
            && StepFixed(ps[5], Submitted).vehicles == [a, b]
  {
    assert EditVehicle([a, b], "A", a) == [a, b];
  }

  lemma StaleTrace(a: Vehicle, b: Vehicle)
    requires a.regNo == "A" && b.regNo == "B" && FormComplete(a)
    ensures Trace(Initial([a, b]), [EditClicked(a), ListTabClicked, DetailsClicked(b), CloseDetails, AddNewClicked, Submitted])
  {
    var es := [EditClicked(a), ListTabClicked, DetailsClicked(b), CloseDetails, AddNewClicked, Submitted];
    var ps := StalePages(a, b);
    StaleSuffixes(a, b, es);
    StaleSteps(a, b);
    assert Trace(Step(ps[5], Submitted), es[5..][1..]);
    assert Trace(ps[5], es[5..]);
    assert Trace(ps[4], es[4..]);
    assert Trace(ps[3], es[3..]);
    assert Trace(ps[2], es[2..]);
    assert Trace(ps[1], es[1..]);
  }

  lemma StaleRun(a: Vehicle, b: Vehicle)
    requires a.regNo == "A" && b.regNo == "B" && FormComplete(a)
    ensures Run(Initial([a, b]), [EditClicked(a), ListTabClicked, DetailsClicked(b), CloseDetails, AddNewClicked, Submitted]).vehicles == [a, a]
  {
    var es := [EditClicked(a), ListTabClicked, DetailsClicked(b), CloseDetails, AddNewClicked, Submitted];
    var ps := StalePages(a, b);
    StaleSuffixes(a, b, es);
    StaleSteps(a, b);
    var last := Step(ps[5], Submitted);
    assert Run(ps[5], es[5..]) == last;
    assert Run(ps[4], es[4..]) == last;
    assert Run(ps[3], es[3..]) == last;
    assert Run(ps[2], es[2..]) == last;
    assert Run(ps[1], es[1..]) == last;
  }

  lemma StaleRunFixed(a: Vehicle, b: Vehicle)
    requires a.regNo == "A" && b.regNo == "B"
    ensures RunFixed(Initial([a, b]), [EditClicked(a), ListTabClicked, DetailsClicked(b), CloseDetails, AddNewClicked, Submitted]).vehicles == [a, b]
  {
    var es := [EditClicked(a), ListTabClicked, DetailsClicked(b), CloseDetails, AddNewClicked, Submitted];
    var ps := StalePages(a, b);
    StaleSuffixes(a, b, es);
    StaleFixedSteps(a, b);
    var last := StepFixed(ps[5], Submitted);
    assert RunFixed(ps[5], es[5..]) == last;
    assert RunFixed(ps[4], es[4..]) == last;
    assert RunFixed(ps[3], es[3..]) == last;
    assert RunFixed(ps[2], es[2..]) == last;
    assert RunFixed(ps[1], es[1..]) == last;
  }
}

=== FILE: sequences.dfy ===
/** Order-preserving selection over sequences, the model of `Array.prototype.filter`. */
module Sequences {

  /** `a` can be obtained from `b` by deleting elements, keeping the order of the rest. */
  predicate Subsequence<T(==,!new)>(a: seq<T>, b: seq<T>)
    decreases |b|
  {
    a == [] || (b != [] && ((a[0] == b[0] && Subsequence(a[1..], b[1..])) || Subsequence(a, b[1..])))
  }

  /** The elements of `s` satisfying `p`, in their original order. */
  function Filter<T(==,!new)>(p: T -> bool, s: seq<T>): (r: seq<T>)
    ensures |r| <= |s|
    ensures forall i :: 0 <= i < |r| ==> p(r[i])
    ensures forall x :: x in r <==> x in s && p(x)
  {
    if s == [] then []
    else
      var rest := Filter(p, s[1..]);
      if p(s[0]) then [s[0]] + rest else rest
  }

  /** Filtering keeps every selected element as often as it occurs, and drops the rest. */
  lemma {:induction false} FilterMultiset<T(!new)>(p: T -> bool, s: seq<T>)
    ensures forall x :: multiset(Filter(p, s))[x] == if p(x) then multiset(s)[x] else 0
    decreases |s|
  {
    if s != [] {
      assert s == [s[0]] + s[1..];
      FilterMultiset(p, s[1..]);
    }
  }

  /** Filtering only deletes: what is kept stays in its original order. */
  lemma {:induction false} FilterSubsequence<T(!new)>(p: T -> bool, s: seq<T>)
    ensures Subsequence(Filter(p, s), s)
    decreases |s|
  {
    if s != [] {
      var rest := Filter(p, s[1..]);
      FilterSubsequence(p, s[1..]);
      if p(s[0]) {
        assert ([s[0]] + rest)[1..] == rest;
      }
    }
  }

  /** Filtering a non-empty sequence inspects its head and then its tail. */
  lemma FilterCons<T(!new)>(p: T -> bool, x: T, s: seq<T>)
    ensures Filter(p, [x] + s) == (if p(x) then [x] else []) + Filter(p, s)
  {
    assert ([x] + s)[1..] == s;
  }
}

=== FILE: service_catalog.dfy ===
/**
 * The maintenance catalog of the vehicle page and the per-entry projection of
 * `calculateUpcomingServices`: when each service is next due, how far away
 * that is, and how urgent it is.
 */
module ServiceCatalog {

  /** One catalog entry: a service that recurs every `interval` km. */
  datatype Service = Service(id: int, name: string, interval: int, description: string)

  /** The badge shown for a due service ('Overdue', 'Due Soon', otherwise 'Upcoming'). */
  datatype Status = Overdue | DueSoon | Upcoming

  /**
   * A catalog entry annotated for one vehicle. The source spreads the entry's
   * fields into the record; here the entry is carried whole in `service`.
   */
  datatype DueService = DueService(service: Service, nextServiceAt: int, dueIn: int, status: Status)

  /** The two distances the scheduler compares `dueIn` against. */
  datatype Policy = Policy(dueSoonThreshold: int, horizon: int)

  /** The page's fixed catalog, in display order. */
  const ServiceSchedule: seq<Service> := [
    Service(1, "Oil Change", 10000, "Engine oil and filter replacement"),
    Service(2, "Tire Rotation", 15000, "Tire rotation and pressure check"),
    Service(3, "Brake Inspection", 20000, "Complete brake system inspection"),
    Service(4, "Air Filter Replacement", 30000, "Engine air filter replacement"),
    Service(5, "Transmission Fluid", 60000, "Transmission fluid change"),
    Service(6, "Coolant Flush", 80000, "Cooling system flush and refill")
  ]

  /** 'Due Soon' within 1000 km; only services due within 5000 km are listed. */
  const PagePolicy: Policy := Policy(1000, 5000)

  /** Every interval is a positive distance, so the division by it is defined. */
  predicate ValidCatalog(catalog: seq<Service>) {
    forall i :: 0 <= i < |catalog| ==> catalog[i].interval > 0
  }

  predicate UniqueIds(catalog: seq<Service>) {
    forall i, j :: 0 <= i < j < |catalog| ==> catalog[i].id != catalog[j].id
  }

  lemma ServiceScheduleWellFormed()
    ensures ValidCatalog(ServiceSchedule) && UniqueIds(ServiceSchedule)
  {
  }

  /**
   * The next odometer value at which a service with this interval falls due:
   * the least multiple of `interval` strictly above the last-service mileage.
   * Dafny's `/` with a positive divisor rounds down, as `Math.floor` does.
   */
  function NextServiceAt(lastServiceMileage: int, interval: int): (r: int)
    requires interval > 0
    ensures r % interval == 0
    ensures lastServiceMileage < r <= lastServiceMileage + interval
    ensures lastServiceMileage >= 0 ==> r > 0
  {
    var count := lastServiceMileage / interval;
    ModOfMultiple(count + 1, interval);
    (count + 1) * interval
  }

  /** No multiple of the interval lies strictly between the last service and the next one. */
  lemma NextServiceAtIsLeast(lastServiceMileage: int, interval: int, m: int)
    requires interval > 0
    requires m % interval == 0 && m > lastServiceMileage
    ensures NextServiceAt(lastServiceMileage, interval) <= m
  {
    var r := NextServiceAt(lastServiceMileage, interval);
    var k, q := m / interval, r / interval;
    assert m == k * interval;
    assert (q - 1) * interval == r - interval <= lastServiceMileage < m;
    MulCancel(q - 1, k, interval);
    MulMonotone(q, k, interval);
  }

  lemma MulMonotone(a: int, b: int, c: int)
    requires a <= b && c > 0
    ensures a * c <= b * c
  {
  }

  lemma MulCancel(a: int, b: int, c: int)
    requires c > 0
    ensures a * c < b * c ==> a < b
  {
  }

  lemma ModOfMultiple(k: int, m: int)
    requires m > 0
    ensures (k * m) % m == 0
  {
    var q, r := (k * m) / m, (k * m) % m;
    assert (k - q) * m == r;
    MulCancel(k - q, 1, m);
    MulCancel(0, k - q + 1, m);
  }

  /** The badge for a signed distance to the next service. */
  function Classify(dueIn: int, dueSoonThreshold: int): (st: Status)
    ensures st == Overdue <==> dueIn <= 0
    ensures st == DueSoon <==> 0 < dueIn <= dueSoonThreshold
    ensures st == Upcoming <==> 0 < dueIn && dueSoonThreshold < dueIn
  {
    if dueIn <= 0 then Overdue
    else if dueIn <= dueSoonThreshold then DueSoon
    else Upcoming
  }

  /** The annotation of one catalog entry for a vehicle (the `map` callback). */
  function Project(s: Service, lastServiceMileage: int, currentMileage: int, dueSoonThreshold: int): (d: DueService)
    requires s.interval > 0
    ensures d.service == s
    ensures d.nextServiceAt % s.interval == 0
    ensures lastServiceMileage < d.nextServiceAt <= lastServiceMileage + s.interval
    ensures d.dueIn == d.nextServiceAt - currentMileage
    ensures d.status == Overdue <==> d.dueIn <= 0
    ensures d.status == DueSoon <==> 0 < d.dueIn <= dueSoonThreshold
    ensures d.status == Upcoming <==> 0 < d.dueIn && dueSoonThreshold < d.dueIn
  {
    var next := NextServiceAt(lastServiceMileage, s.interval);
    var dueIn := next - currentMileage;
    DueService(s, next, dueIn, Classify(dueIn, dueSoonThreshold))
  }

  /** How pressing a badge is: Overdue above Due Soon above Upcoming. */
  function Urgency(st: Status): nat {
    match st
    case Overdue => 2
    case DueSoon => 1
    case Upcoming => 0
  }

  /**
   * Driving `delta` more km leaves the due odometer value where it was, brings
   * the service `delta` km closer, and never makes its badge less pressing.
   */
  lemma MileageShift(s: Service, lastServiceMileage: int, currentMileage: int, delta: nat, dueSoonThreshold: int)
    requires s.interval > 0
    ensures var before := Project(s, lastServiceMileage, currentMileage, dueSoonThreshold);
            var after := Project(s, lastServiceMileage, currentMileage + delta, dueSoonThreshold);
            && after.nextServiceAt == before.nextServiceAt
            && after.dueIn == before.dueIn - delta
            && Urgency(after.status) >= Urgency(before.status)
  {
  }

  /**
   * A 5000 km service with the page's 1000 km threshold: at 15000 km after a
   * service at 10000 km it is due now; at 14500 km it is due soon; at 8000 km
   * after a service at 3000 km it was due at 5000 km and is 3000 km overdue.
   */
  lemma FiveThousandKmScenarios(s: Service)
    requires s.interval == 5000
    ensures Project(s, 10000, 15000, 1000) == DueService(s, 15000, 0, Overdue)
    ensures Project(s, 10000, 14500, 1000) == DueService(s, 15000, 500, DueSoon)
    ensures Project(s, 3000, 8000, 1000) == DueService(s, 5000, -3000, Overdue)
  {
  }

  /** The catalog annotated entry by entry, in catalog order: one record per entry. */
  function ProjectAll(catalog: seq<Service>, lastServiceMileage: int, currentMileage: int, dueSoonThreshold: int): (ds: seq<DueService>)
    requires ValidCatalog(catalog)
    ensures |ds| == |catalog|
    ensures forall i :: 0 <= i < |catalog| ==> ds[i] == Project(catalog[i], lastServiceMileage, currentMileage, dueSoonThreshold)
  {
    if catalog == [] then []
    else [Project(catalog[0], lastServiceMileage, currentMileage, dueSoonThreshold)]
         + ProjectAll(catalog[1..], lastServiceMileage, currentMileage, dueSoonThreshold)
  }

  /** With distinct ids, each entry's annotation occurs exactly once in the annotated catalog. */
  lemma {:induction false} ProjectAllOccursOnce(catalog: seq<Service>, lastServiceMileage: int, currentMileage: int, dueSoonThreshold: int, i: int)
    requires ValidCatalog(catalog) && UniqueIds(catalog)
    requires 0 <= i < |catalog|
    ensures multiset(ProjectAll(catalog, lastServiceMileage, currentMileage, dueSoonThreshold))[Project(catalog[i], lastServiceMileage, currentMileage, dueSoonThreshold)] == 1
    decreases |catalog|
  {
    var ds := ProjectAll(catalog, lastServiceMileage, currentMileage, dueSoonThreshold);
    var d := Project(catalog[i], lastServiceMileage, currentMileage, dueSoonThreshold);
    var tail := catalog[1..];
    var rest := ProjectAll(tail, lastServiceMileage, currentMileage, dueSoonThreshold);
    assert ds == [ds[0]] + rest;
    if i == 0 {
      forall j | 0 <= j < |rest|
        ensures rest[j] != d
      {
        assert rest[j].service == tail[j] == catalog[j + 1];
      }
      assert d !in rest;
    } else {
      assert ds[0] != d by {
        assert ds[0].service.id == catalog[0].id != catalog[i].id;
      }
      assert tail[i - 1] == catalog[i];
      ProjectAllOccursOnce(tail, lastServiceMileage, currentMileage, dueSoonThreshold, i - 1);
    }
  }
}

=== FILE: stable_sort.dfy ===
/**
 * Ordering the annotated catalog by ascending `dueIn`, most urgent first. The
 * sort of ECMAScript 2019 and later is stable (section 22.1.3.27 of ECMA-262,
 * 10th edition), so entries with equal `dueIn` keep their catalog order; the
 * model is a stable insertion sort.
 */
module StableSort {
  import opened Sequences
  import opened ServiceCatalog

  /** Most urgent first: `dueIn` never decreases along the sequence. */
  predicate Sorted(s: seq<DueService>) {
    forall i, j :: 0 <= i < j < |s| ==> s[i].dueIn <= s[j].dueIn
  }

  /** The entries due in exactly `k` km, in the order they occur in `s`. */
  function WithDueIn(s: seq<DueService>, k: int): seq<DueService> {
    Filter((d: DueService) => d.dueIn == k, s)
  }

  /** `x` placed before the first entry of `s` that is due no sooner than it. */
  function Insert(x: DueService, s: seq<DueService>): (r: seq<DueService>)
    ensures |r| == |s| + 1
    ensures multiset(r) == multiset(s) + multiset{x}
    ensures forall z :: z in r <==> z == x || z in s
    ensures Sorted(s) ==> Sorted(r)
  {
    if s == [] || x.dueIn <= s[0].dueIn then [x] + s
    else
      var rest := Insert(x, s[1..]);
      assert s == [s[0]] + s[1..];
      InsertBehindHead(x, s, rest);
      [s[0]] + rest
  }

  /** Putting the head of a sorted `s` in front of a sorted insertion into its tail keeps it sorted. */
  lemma InsertBehindHead(x: DueService, s: seq<DueService>, rest: seq<DueService>)
    requires s != [] && s[0].dueIn < x.dueIn
    requires forall z :: z in rest <==> z == x || z in s[1..]
    requires Sorted(s[1..]) ==> Sorted(rest)
    ensures Sorted(s) ==> Sorted([s[0]] + rest)
  {
    if Sorted(s) {
      assert Sorted(s[1..]) by {
        forall i, j | 0 <= i < j < |s[1..]|
          ensures s[1..][i].dueIn <= s[1..][j].dueIn
        {
          assert s[1..][i] == s[i + 1] && s[1..][j] == s[j + 1];
        }
      }
      forall z | z in rest
        ensures s[0].dueIn <= z.dueIn
      {
        if z != x {
          var j :| 0 <= j < |s[1..]| && s[1..][j] == z;
          assert s[j + 1] == z;
        }
      }
      var r := [s[0]] + rest;
      forall i, j | 0 <= i < j < |r|
        ensures r[i].dueIn <= r[j].dueIn
      {
        if i == 0 {
          assert r[j] == rest[j - 1] && r[j] in rest;
        } else {
          assert r[i] == rest[i - 1] && r[j] == rest[j - 1];
        }
      }
    }
  }

  /** Insertion sort by `dueIn`: each element is inserted into the sorted rest. */
  function SortByDueIn(s: seq<DueService>): (r: seq<DueService>)
    ensures |r| == |s|
    ensures multiset(r) == multiset(s)
    ensures Sorted(r)
  {
    if s == [] then []
    else
      assert s == [s[0]] + s[1..];
      Insert(s[0], SortByDueIn(s[1..]))
  }

  lemma WithDueInCons(x: DueService, s: seq<DueService>, k: int)
    ensures WithDueIn([x] + s, k) == (if x.dueIn == k then [x] else []) + WithDueIn(s, k)
  {
    FilterCons((d: DueService) => d.dueIn == k, x, s);
  }

  /** Inserting `x` into a sorted sequence puts it ahead of every entry with its own `dueIn`. */
  lemma {:induction false} InsertStable(x: DueService, s: seq<DueService>, k: int)
    requires Sorted(s)
    ensures WithDueIn(Insert(x, s), k) == WithDueIn([x] + s, k)
    decreases |s|
  {
    if s == [] || x.dueIn <= s[0].dueIn {
    } else {
      var y, rest := s[0], s[1..];
      assert s == [y] + rest;
      InsertStable(x, rest, k);
      WithDueInCons(y, Insert(x, rest), k);
      WithDueInCons(x, rest, k);
      WithDueInCons(x, s, k);
      WithDueInCons(y, rest, k);
    }
  }

  /** Entries with equal `dueIn` leave the sort in the order they entered it. */
  lemma {:induction false} SortStable(s: seq<DueService>, k: int)
    ensures WithDueIn(SortByDueIn(s), k) == WithDueIn(s, k)
    decreases |s|
  {
    if s != [] {
      assert s == [s[0]] + s[1..];
      InsertStable(s[0], SortByDueIn(s[1..]), k);
      SortStable(s[1..], k);
      WithDueInCons(s[0], SortByDueIn(s[1..]), k);
      WithDueInCons(s[0], s[1..], k);
    }
  }

  /** Every entry of `s` belongs to its own `dueIn` class. */
  lemma InOwnClass(s: seq<DueService>, i: int)
    requires 0 <= i < |s|
    ensures s[i] in WithDueIn(s, s[i].dueIn)
  {
  }

  /** Sorted sequences with the same `dueIn` classes start in the same class. */
  lemma SameLeastDueIn(a: seq<DueService>, b: seq<DueService>)
    requires Sorted(a) && Sorted(b) && a != [] && b != []
    requires forall k :: WithDueIn(a, k) == WithDueIn(b, k)
    ensures a[0].dueIn == b[0].dueIn
  {
    InOwnClass(a, 0);
    InOwnClass(b, 0);
    assert b[0] in WithDueIn(a, b[0].dueIn);
    assert a[0] in WithDueIn(b, a[0].dueIn);
  }

  /** Two sorted sequences that agree on the order of every `dueIn` class are equal. */
  lemma {:induction false} SortedStableUnique(a: seq<DueService>, b: seq<DueService>)
    requires Sorted(a) && Sorted(b)
    requires forall k :: WithDueIn(a, k) == WithDueIn(b, k)
    ensures a == b
    decreases |a|
  {
    EmptyTogether(a, b);
    if a != [] {
      SameHead(a, b);
      SameTailClasses(a, b);
      SortedTail(a);
      SortedTail(b);
      SortedStableUnique(a[1..], b[1..]);
      assert a == [a[0]] + a[1..] && b == [b[0]] + b[1..];
    }
  }

  lemma SortedTail(a: seq<DueService>)
    requires Sorted(a) && a != []
    ensures Sorted(a[1..])
  {
  }

  /** Sequences with the same `dueIn` classes are both empty or both not. */
  lemma EmptyTogether(a: seq<DueService>, b: seq<DueService>)
    requires forall k :: WithDueIn(a, k) == WithDueIn(b, k)
    ensures a == [] <==> b == []
  {
    if a != [] {
      InOwnClass(a, 0);
      assert WithDueIn(b, a[0].dueIn) != [];
    }
    if b != [] {
      InOwnClass(b, 0);
      assert WithDueIn(a, b[0].dueIn) != [];
    }
  }

  /** Sorted sequences with the same `dueIn` classes start with the same entry. */
  lemma SameHead(a: seq<DueService>, b: seq<DueService>)
    requires Sorted(a) && Sorted(b) && a != [] && b != []
    requires forall k :: WithDueIn(a, k) == WithDueIn(b, k)
    ensures a[0] == b[0]
  {
    SameLeastDueIn(a, b);
    var k := a[0].dueIn;
    assert a == [a[0]] + a[1..] && b == [b[0]] + b[1..];
    WithDueInCons(a[0], a[1..], k);
    WithDueInCons(b[0], b[1..], k);
    assert ([a[0]] + WithDueIn(a[1..], k))[0] == ([b[0]] + WithDueIn(b[1..], k))[0];
  }

  /** Removing equal heads from sequences with the same `dueIn` classes keeps them the same. */
  lemma SameTailClasses(a: seq<DueService>, b: seq<DueService>)
    requires a != [] && b != [] && a[0] == b[0]
    requires forall k :: WithDueIn(a, k) == WithDueIn(b, k)
    ensures forall k :: WithDueIn(a[1..], k) == WithDueIn(b[1..], k)
  {
    assert a == [a[0]] + a[1..] && b == [b[0]] + b[1..];
    forall k
      ensures WithDueIn(a[1..], k) == WithDueIn(b[1..], k)
    {
      WithDueInCons(a[0], a[1..], k);
      WithDueInCons(b[0], b[1..], k);
      var h := if a[0].dueIn == k then [a[0]] else [];
      assert h + WithDueIn(a[1..], k) == h + WithDueIn(b[1..], k);
      assert WithDueIn(a[1..], k) == (h + WithDueIn(a[1..], k))[|h|..];
      assert WithDueIn(b[1..], k) == (h + WithDueIn(b[1..], k))[|h|..];
    }
  }

  /**
   * The sorted output is the one and only arrangement of the input that is
   * ordered by `dueIn` and keeps equal-`dueIn` entries in input order.
   */
  lemma SortCharacterization(s: seq<DueService>, t: seq<DueService>)
    ensures t == SortByDueIn(s) <==> Sorted(t) && forall k :: WithDueIn(t, k) == WithDueIn(s, k)
  {
    forall k
      ensures WithDueIn(SortByDueIn(s), k) == WithDueIn(s, k)
    {
      SortStable(s, k);
    }
    if Sorted(t) && forall k :: WithDueIn(t, k) == WithDueIn(s, k) {
      SortedStableUnique(t, SortByDueIn(s));
    }
  }
}

=== FILE: upcoming.dfy ===
/**
 * `calculateUpcomingServices`: the catalog annotated for one vehicle, cut to
 * the services due within the horizon and ordered most urgent first; and the
 * urgent flag and badge counts the vehicle list derives from it.
 */
module Upcoming {
  import opened Wrappers
  import opened Sequences
  import opened ServiceCatalog
  import opened StableSort
  import opened Vehicles

  /** A missing last-service odometer reading counts as 0; a present one is used as it is. */
  function LastServiceMileage(v: Vehicle): (m: int)
    ensures v.lastServiceMileage.None? ==> m == 0
    ensures v.lastServiceMileage.Some? ==> m == v.lastServiceMileage.value
  {
    v.lastServiceMileage.GetOr(0)
  }

  /** The annotated catalog entries due within the horizon, still in catalog order. */
  function Candidates(catalog: seq<Service>, lastServiceMileage: int, currentMileage: int, policy: Policy): (ds: seq<DueService>)
    requires ValidCatalog(catalog)
    ensures |ds| <= |catalog|
    ensures forall j :: 0 <= j < |ds| ==> ds[j].dueIn <= policy.horizon
    ensures forall i :: 0 <= i < |catalog| ==>
      var d := Project(catalog[i], lastServiceMileage, currentMileage, policy.dueSoonThreshold);
      d in ds <==> d.dueIn <= policy.horizon
    ensures forall d :: d in ds ==>
      exists i :: 0 <= i < |catalog| && d == Project(catalog[i], lastServiceMileage, currentMileage, policy.dueSoonThreshold)
    ensures Subsequence(ds, ProjectAll(catalog, lastServiceMileage, currentMileage, policy.dueSoonThreshold))
  {
    var all := ProjectAll(catalog, lastServiceMileage, currentMileage, policy.dueSoonThreshold);
    var ds := Filter((d: DueService) => d.dueIn <= policy.horizon, all);
    assert forall i :: 0 <= i < |catalog| ==> all[i] in all;
    assert forall d :: d in ds ==> exists i :: 0 <= i < |all| && all[i] == d;
    FilterSubsequence((d: DueService) => d.dueIn <= policy.horizon, all);
    ds
  }

  /**
   * The services shown for `vehicle`. No vehicle, or one without a current
   * mileage, has nothing to show whatever the catalog holds.
   */
  function CalculateUpcomingServices(vehicle: Option<Vehicle>, catalog: seq<Service>, policy: Policy): (r: seq<DueService>)
    requires ValidCatalog(catalog)
    ensures vehicle.None? || vehicle.value.mileage.None? ==> r == []
    ensures |r| <= |catalog|
    ensures Sorted(r)
    ensures forall i :: 0 <= i < |r| ==> r[i].dueIn <= policy.horizon
  {
    match vehicle
    case None => []
    case Some(v) =>
      match v.mileage
      case None => []
      case Some(currentMileage) =>
        var c := Candidates(catalog, LastServiceMileage(v), currentMileage, policy);
        var r := SortByDueIn(c);
        assert forall j :: 0 <= j < |r| ==> r[j].dueIn <= policy.horizon by {
          forall j | 0 <= j < |r|
            ensures r[j].dueIn <= policy.horizon
          {
            assert r[j] in multiset(c);
          }
        }
        r
  }

  /** The page's own scheduler: its fixed catalog and 1000 km / 5000 km policy. */
  function PageUpcomingServices(vehicle: Option<Vehicle>): (r: seq<DueService>)
    ensures |r| <= |ServiceSchedule|
    ensures forall i :: 0 <= i < |r| ==> r[i].dueIn <= 5000
  {
    CalculateUpcomingServices(vehicle, ServiceSchedule, PagePolicy)
  }

  /**
   * Every listed record is its catalog entry, unchanged, annotated for this
   * vehicle: next due odometer value, distance and badge.
   */
  lemma UpcomingEntries(v: Vehicle, catalog: seq<Service>, policy: Policy)
    requires ValidCatalog(catalog) && v.mileage.Some?
    ensures forall d :: d in CalculateUpcomingServices(Some(v), catalog, policy) ==>
      d.service in catalog
      && d == Project(d.service, LastServiceMileage(v), v.mileage.value, policy.dueSoonThreshold)
  {
    var all := ProjectAll(catalog, LastServiceMileage(v), v.mileage.value, policy.dueSoonThreshold);
    forall d | d in CalculateUpcomingServices(Some(v), catalog, policy)
      ensures d.service in catalog
      ensures d == Project(d.service, LastServiceMileage(v), v.mileage.value, policy.dueSoonThreshold)
    {
      assert d in multiset(Candidates(catalog, LastServiceMileage(v), v.mileage.value, policy));
      assert d in all;
      var i :| 0 <= i < |all| && all[i] == d;
      assert d.service == catalog[i];
    }
  }

  /**
   * The horizon filter is exact: a catalog entry is listed if and only if it
   * is due within the horizon, and with distinct ids it is listed exactly once.
   */
  lemma UpcomingExact(v: Vehicle, catalog: seq<Service>, policy: Policy, i: int)
    requires ValidCatalog(catalog) && v.mileage.Some?
    requires 0 <= i < |catalog|
    ensures var d := Project(catalog[i], LastServiceMileage(v), v.mileage.value, policy.dueSoonThreshold);
            var r := CalculateUpcomingServices(Some(v), catalog, policy);
            && (d in r <==> d.dueIn <= policy.horizon)
            && (UniqueIds(catalog) && d.dueIn <= policy.horizon ==> multiset(r)[d] == 1)
  {
    var d := Project(catalog[i], LastServiceMileage(v), v.mileage.value, policy.dueSoonThreshold);
    var c := Candidates(catalog, LastServiceMileage(v), v.mileage.value, policy);
    var r := CalculateUpcomingServices(Some(v), catalog, policy);
    FilterMultiset((d: DueService) => d.dueIn <= policy.horizon,
                   ProjectAll(catalog, LastServiceMileage(v), v.mileage.value, policy.dueSoonThreshold));
    assert multiset(r) == multiset(c);
    assert d in r <==> d in multiset(c);
    if UniqueIds(catalog) && d.dueIn <= policy.horizon {
      ProjectAllOccursOnce(catalog, LastServiceMileage(v), v.mileage.value, policy.dueSoonThreshold, i);
    }
  }

  /**
   * The output is the candidates sorted by `dueIn`, entries due in the same
   * distance staying in catalog order. `SortCharacterization` shows that no
   * other arrangement of the candidates has both properties.
   */
  lemma UpcomingOrder(v: Vehicle, catalog: seq<Service>, policy: Policy)
    requires ValidCatalog(catalog) && v.mileage.Some?
    ensures var c := Candidates(catalog, LastServiceMileage(v), v.mileage.value, policy);
            var r := CalculateUpcomingServices(Some(v), catalog, policy);
            && multiset(r) == multiset(c)
            && forall k :: WithDueIn(r, k) == WithDueIn(c, k)
  {
    var c := Candidates(catalog, LastServiceMileage(v), v.mileage.value, policy);
    forall k
      ensures WithDueIn(SortByDueIn(c), k) == WithDueIn(c, k)
    {
      SortStable(c, k);
    }
  }

  /** At least one listed service is Overdue or Due Soon (the list's warning banner). */
  predicate HasUrgentServices(ds: seq<DueService>): (b: bool)
    ensures b <==> exists d :: d in ds && d.status != Upcoming
    ensures b ==> ds != []
  {
    exists i :: 0 <= i < |ds| && (ds[i].status == Overdue || ds[i].status == DueSoon)
  }

  /** The badges of the listed services, in list order. */
  function Statuses(ds: seq<DueService>): (ss: seq<Status>)
    ensures |ss| == |ds|
    ensures forall i :: 0 <= i < |ds| ==> ss[i] == ds[i].status
  {
    if ds == [] then [] else [ds[0].status] + Statuses(ds[1..])
  }

  /** The selection behind a badge count: the services carrying badge `st`. */
  function StatusIs(st: Status): DueService -> bool {
    (d: DueService) => d.status == st
  }

  /** How many listed services carry badge `st`: exactly as many as `st` occurs among the badges. */
  function CountStatus(ds: seq<DueService>, st: Status): (n: nat)
    ensures n <= |ds|
    ensures n == multiset(Statuses(ds))[st]
    ensures n == 0 <==> forall d :: d in ds ==> d.status != st
  {
    var f := Filter(StatusIs(st), ds);
    assert f != [] ==> f[0] in f;
    FilterStatusCount(ds, st);
    |f|
  }

  /** Selecting the services with one badge keeps one service per occurrence of that badge. */
  lemma {:induction false} FilterStatusCount(ds: seq<DueService>, st: Status)
    ensures |Filter(StatusIs(st), ds)| == multiset(Statuses(ds))[st]
    decreases |ds|
  {
    if ds != [] {
      assert ds == [ds[0]] + ds[1..];
      FilterCons(StatusIs(st), ds[0], ds[1..]);
      FilterStatusCount(ds[1..], st);
    }
  }

  lemma CountStatusCons(d: DueService, ds: seq<DueService>, st: Status)
    ensures CountStatus([d] + ds, st) == (if d.status == st then 1 else 0) + CountStatus(ds, st)
  {
    FilterCons(StatusIs(st), d, ds);
  }

  /**
   * The banner's two counts never add up to more than the services listed, and
   * the banner is shown exactly when their sum is positive.
   */
  lemma {:induction false} UrgentCounts(ds: seq<DueService>)
    ensures CountStatus(ds, Overdue) + CountStatus(ds, DueSoon) <= |ds|
    ensures HasUrgentServices(ds) <==> CountStatus(ds, Overdue) + CountStatus(ds, DueSoon) > 0
    decreases |ds|
  {
    if ds != [] {
      assert ds == [ds[0]] + ds[1..];
      UrgentCounts(ds[1..]);
      CountStatusCons(ds[0], ds[1..], Overdue);
      CountStatusCons(ds[0], ds[1..], DueSoon);
    }
  }

  /**
   * When the due-soon threshold lies between 0 and the horizon, a vehicle is flagged
   * exactly when some catalog service is due within the threshold.
   */
  lemma UrgentIffDueWithinThreshold(v: Vehicle, catalog: seq<Service>, policy: Policy)
    requires ValidCatalog(catalog) && v.mileage.Some?
    requires 0 <= policy.dueSoonThreshold <= policy.horizon
    ensures HasUrgentServices(CalculateUpcomingServices(Some(v), catalog, policy)) <==>
      exists i ::
        0 <= i < |catalog| &&
        Project(catalog[i], LastServiceMileage(v), v.mileage.value, policy.dueSoonThreshold).dueIn <= policy.dueSoonThreshold
  {
    var last, current := LastServiceMileage(v), v.mileage.value;
    UrgentHasSource(v, catalog, policy);
    if exists i :: 0 <= i < |catalog| && Project(catalog[i], last, current, policy.dueSoonThreshold).dueIn <= policy.dueSoonThreshold {
      var i :| 0 <= i < |catalog| && Project(catalog[i], last, current, policy.dueSoonThreshold).dueIn <= policy.dueSoonThreshold;
      SourceIsUrgent(v, catalog, policy, i);
    }
  }

  lemma UrgentHasSource(v: Vehicle, catalog: seq<Service>, policy: Policy)
    requires ValidCatalog(catalog) && v.mileage.Some?
    requires 0 <= policy.dueSoonThreshold
    ensures HasUrgentServices(CalculateUpcomingServices(Some(v), catalog, policy)) ==>
            exists i ::
              0 <= i < |catalog| &&
              Project(catalog[i], LastServiceMileage(v), v.mileage.value, policy.dueSoonThreshold).dueIn <= policy.dueSoonThreshold
  {
    var last, current := LastServiceMileage(v), v.mileage.value;
    var r := CalculateUpcomingServices(Some(v), catalog, policy);
    if HasUrgentServices(r) {
      UpcomingEntries(v, catalog, policy);
      var j :| 0 <= j < |r| && (r[j].status == Overdue || r[j].status == DueSoon);
      assert r[j] in r;
      var i :| 0 <= i < |catalog| && catalog[i] == r[j].service;
      assert Project(catalog[i], last, current, policy.dueSoonThreshold) == r[j];
    }
  }

  lemma SourceIsUrgent(v: Vehicle, catalog: seq<Service>, policy: Policy, i: int)
    requires ValidCatalog(catalog) && v.mileage.Some?
    requires policy.dueSoonThreshold <= policy.horizon
    requires 0 <= i < |catalog|
    requires Project(catalog[i], LastServiceMileage(v), v.mileage.value, policy.dueSoonThreshold).dueIn <= policy.dueSoonThreshold
    ensures HasUrgentServices(CalculateUpcomingServices(Some(v), catalog, policy))
  {
    var r := CalculateUpcomingServices(Some(v), catalog, policy);
    var d := Project(catalog[i], LastServiceMileage(v), v.mileage.value, policy.dueSoonThreshold);
    UpcomingExact(v, catalog, policy, i);
    var j :| 0 <= j < |r| && r[j] == d;
  }

  /**
   * Once a service is listed it stays listed as the odometer advances: it is
   * then due `delta` km sooner, and its badge is at least as pressing.
   */
  lemma StaysListedAsMileageGrows(v: Vehicle, delta: nat, catalog: seq<Service>, policy: Policy, i: int)
    requires ValidCatalog(catalog) && v.mileage.Some?
    requires 0 <= i < |catalog|
    ensures var later := v.(mileage := Some(v.mileage.value + delta));
            var before := Project(catalog[i], LastServiceMileage(v), v.mileage.value, policy.dueSoonThreshold);
            var after := Project(catalog[i], LastServiceMileage(later), later.mileage.value, policy.dueSoonThreshold);
            && (before in CalculateUpcomingServices(Some(v), catalog, policy) ==>
                after in CalculateUpcomingServices(Some(later), catalog, policy))
            && after.dueIn == before.dueIn - delta
            && Urgency(after.status) >= Urgency(before.status)
  {
    var later := v.(mileage := Some(v.mileage.value + delta));
    UpcomingExact(v, catalog, policy, i);
    UpcomingExact(later, catalog, policy, i);
    MileageShift(catalog[i], LastServiceMileage(v), v.mileage.value, delta, policy.dueSoonThreshold);
  }

  /**
   * The page's catalog for a car at 15000 km last serviced at 10000 km: the
   * tire rotation is due now, and the oil change and brake inspection, both
   * due in 5000 km, follow in catalog order; the rest lie beyond the horizon.
   */
  lemma PageExample()
    ensures var car := Vehicle("AB-1234", "Toyota", "Corolla", "2019", "petrol", "#3b82f6",
                               Some(15000), Some(10000), "");
            PageUpcomingServices(Some(car)) == [
              DueService(ServiceSchedule[1], 15000, 0, Overdue),
              DueService(ServiceSchedule[0], 20000, 5000, Upcoming),
              DueService(ServiceSchedule[2], 20000, 5000, Upcoming)
            ]
  {
    var car := Vehicle("AB-1234", "Toyota", "Corolla", "2019", "petrol", "#3b82f6", Some(15000), Some(10000), "");
    var a := ProjectAll(ServiceSchedule, 10000, 15000, 1000);
    ExampleAnnotations();
    ExampleUnfold(car);
    ExampleOrder(a);
  }

  lemma ExampleUnfold(car: Vehicle)
    requires car.mileage == Some(15000) && car.lastServiceMileage == Some(10000)
    ensures ValidCatalog(ServiceSchedule)
    ensures PageUpcomingServices(Some(car))
         == SortByDueIn(Filter((d: DueService) => d.dueIn <= 5000, ProjectAll(ServiceSchedule, 10000, 15000, 1000)))
  {
    ServiceScheduleWellFormed();
  }

  /** The page's catalog annotated for 15000 km, last service at 10000 km. */
  lemma ExampleAnnotations()
    ensures ValidCatalog(ServiceSchedule)
    ensures var a := ProjectAll(ServiceSchedule, 10000, 15000, 1000);
            && |a| == 6
            && a[0] == DueService(ServiceSchedule[0], 20000, 5000, Upcoming)
            && a[1] == DueService(ServiceSchedule[1], 15000, 0, Overdue)
            && a[2] == DueService(ServiceSchedule[2], 20000, 5000, Upcoming)
            && a[3].dueIn > 5000 && a[4].dueIn > 5000 && a[5].dueIn > 5000
  {
    ServiceScheduleWellFormed();
    assert NextServiceAt(10000, 10000) == 20000;
    assert NextServiceAt(10000, 15000) == 15000;
    assert NextServiceAt(10000, 20000) == 20000;
  }

  /** The filtering and sorting steps of the example above, on the annotated catalog. */
  lemma ExampleOrder(a: seq<DueService>)
    requires |a| == 6
    requires a[0].dueIn == 5000 && a[1].dueIn == 0 && a[2].dueIn == 5000
    requires a[3].dueIn > 5000 && a[4].dueIn > 5000 && a[5].dueIn > 5000
    ensures SortByDueIn(Filter((d: DueService) => d.dueIn <= 5000, a)) == [a[1], a[0], a[2]]
  {
    ExampleFilter(a);
    ExampleSort(a[0], a[1], a[2]);
  }

  lemma ExampleFilter(a: seq<DueService>)
    requires |a| == 6
    requires a[0].dueIn == 5000 && a[1].dueIn == 0 && a[2].dueIn == 5000
    requires a[3].dueIn > 5000 && a[4].dueIn > 5000 && a[5].dueIn > 5000
    ensures Filter((d: DueService) => d.dueIn <= 5000, a) == [a[0], a[1], a[2]]
  {
    var p := (d: DueService) => d.dueIn <= 5000;
    FilterStep(p, a, 5);
    FilterStep(p, a, 4);
    FilterStep(p, a, 3);
    FilterStep(p, a, 2);
    FilterStep(p, a, 1);
    FilterStep(p, a, 0);
    assert a[6..] == [];
    assert a[0..] == a;
    Concat3(a[0], a[1], a[2]);
  }

  lemma Concat3(x: DueService, y: DueService, z: DueService)
    ensures [x] + ([y] + ([z] + [])) == [x, y, z]
  {
  }

  lemma ExampleSort(x: DueService, y: DueService, z: DueService)
    requires x.dueIn == 5000 && y.dueIn == 0 && z.dueIn == 5000
    ensures SortByDueIn([x, y, z]) == [y, x, z]
  {
    SortPair(y, z);
    SortTriple(x, y, z);
    InsertSecond(x, y, z);
  }

  lemma SortPair(y: DueService, z: DueService)
    requires y.dueIn <= z.dueIn
    ensures SortByDueIn([y, z]) == [y, z]
  {
    assert [y, z][1..] == [z];
    assert [z][1..] == [];
    assert SortByDueIn([z]) == [z];
    assert [y] + [z] == [y, z];
  }

  lemma SortTriple(x: DueService, y: DueService, z: DueService)
    ensures SortByDueIn([x, y, z]) == Insert(x, SortByDueIn([y, z]))
  {
    assert [x, y, z][1..] == [y, z];
  }

  lemma InsertSecond(x: DueService, y: DueService, z: DueService)
    requires y.dueIn < x.dueIn <= z.dueIn
    ensures Insert(x, [y, z]) == [y, x, z]
  {
    assert [y, z][1..] == [z];
    assert Insert(x, [z]) == [x] + [z];
    assert [y] + ([x] + [z]) == [y, x, z];
  }

  lemma FilterStep(p: DueService -> bool, a: seq<DueService>, k: int)
    requires 0 <= k < |a|
    ensures Filter(p, a[k..]) == (if p(a[k]) then [a[k]] else []) + Filter(p, a[k + 1..])
  {
    assert a[k..] == [a[k]] + a[k + 1..];
    FilterCons(p, a[k], a[k + 1..]);
  }
}

=== FILE: vehicles.dfy ===
/**
 * The vehicle list of the page and the three ways a form submission or a
 * button changes it: add, edit and delete, each keyed by registration number.
 */
module Vehicles {
  import opened Wrappers
  import opened Sequences

  /**
   * A stored vehicle. The odometer fields are the values after numeric
   * coercion; `None` stands for a missing or empty form field.
   */
  datatype Vehicle = Vehicle(
    regNo: string,
    make: string,
    model: string,
    year: string,
    fuelType: string,
    color: string,
    mileage: Option<int>,
    lastServiceMileage: Option<int>,
    lastServiceDate: string)

  /** Some stored vehicle already carries this registration number. */
  predicate HasRegNo(vs: seq<Vehicle>, regNo: string): (b: bool)
    ensures b <==> exists v :: v in vs && v.regNo == regNo
    ensures b ==> vs != []
  {
    exists i :: 0 <= i < |vs| && vs[i].regNo == regNo
  }

  /** The registration number is a key: no two stored vehicles share one. */
  predicate UniqueRegNos(vs: seq<Vehicle>) {
    forall i, j :: 0 <= i < j < |vs| ==> vs[i].regNo != vs[j].regNo
  }

  /**
   * Submitting the add form. A registration number already on the list is
   * refused with an alert and the list stays as it was; otherwise the new
   * vehicle goes to the end.
   */
  function AddVehicle(vs: seq<Vehicle>, v: Vehicle): (r: seq<Vehicle>)
    ensures HasRegNo(vs, v.regNo) ==> r == vs
    ensures !HasRegNo(vs, v.regNo) ==> |r| == |vs| + 1 && r[..|vs|] == vs && r[|vs|] == v
    ensures forall regNo :: HasRegNo(r, regNo) <==> HasRegNo(vs, regNo) || regNo == v.regNo
    ensures UniqueRegNos(vs) ==> UniqueRegNos(r)
  {
    if HasRegNo(vs, v.regNo) then vs
    else
      var r := vs + [v];
      assert r[|vs|] == v;
      assert forall i :: 0 <= i < |vs| ==> r[i] == vs[i];
      r
  }

  /**
   * Submitting the edit form: every vehicle whose registration number is the
   * selected one is replaced by the form's record, the others stay in place.
   */
  function EditVehicle(vs: seq<Vehicle>, selectedRegNo: string, form: Vehicle): (r: seq<Vehicle>)
    ensures |r| == |vs|
    ensures forall i :: 0 <= i < |vs| && vs[i].regNo == selectedRegNo ==> r[i] == form
    ensures forall i :: 0 <= i < |vs| && vs[i].regNo != selectedRegNo ==> r[i] == vs[i]
    ensures form.regNo == selectedRegNo ==> forall i :: 0 <= i < |vs| ==> r[i].regNo == vs[i].regNo
  {
    if vs == [] then []
    else
      var rest := EditVehicle(vs[1..], selectedRegNo, form);
      [if vs[0].regNo == selectedRegNo then form else vs[0]] + rest
  }

  /**
   * When the submitted record carries the selected vehicle's number, an edit
   * keeps the list's keys. Right after an "Edit" click it does: the form is
   * loaded from the selected vehicle and its number field is disabled. A later
   * "Details" click can select another vehicle, though; see
   * `VehiclePage.StaleSelectionDuplicates`.
   */
  lemma EditKeepsKeys(vs: seq<Vehicle>, selectedRegNo: string, form: Vehicle)
    requires form.regNo == selectedRegNo
    ensures forall regNo :: HasRegNo(EditVehicle(vs, selectedRegNo, form), regNo) <==> HasRegNo(vs, regNo)
    ensures UniqueRegNos(vs) ==> UniqueRegNos(EditVehicle(vs, selectedRegNo, form))
  {
    var r := EditVehicle(vs, selectedRegNo, form);
    forall regNo
      ensures HasRegNo(r, regNo) <==> HasRegNo(vs, regNo)
    {
      if HasRegNo(r, regNo) {
        var i :| 0 <= i < |r| && r[i].regNo == regNo;
        assert vs[i].regNo == regNo;
      }
      if HasRegNo(vs, regNo) {
        var i :| 0 <= i < |vs| && vs[i].regNo == regNo;
        assert r[i].regNo == regNo;
      }
    }
  }

  /** With unique keys at most one vehicle matches the selection, so at most one is replaced. */
  lemma EditReplacesOne(vs: seq<Vehicle>, selectedRegNo: string, form: Vehicle, i: int, j: int)
    requires UniqueRegNos(vs)
    requires 0 <= i < |vs| && 0 <= j < |vs| && i != j
    requires EditVehicle(vs, selectedRegNo, form)[i] != vs[i]
    ensures EditVehicle(vs, selectedRegNo, form)[j] == vs[j]
  {
  }

  /**
   * When the submitted record carries another number than the selected one,
   * an edit can duplicate a key: two vehicles "A" and "B", and the vehicle
   * selected as "A" replaced by a record numbered "B".
   */
  lemma EditWithChangedRegNoCanDuplicate()
    ensures var a := Vehicle("A", "", "", "", "petrol", "", None, None, "");
            var b := Vehicle("B", "", "", "", "petrol", "", None, None, "");
            UniqueRegNos([a, b]) && !UniqueRegNos(EditVehicle([a, b], "A", b))
  {
    var a := Vehicle("A", "", "", "", "petrol", "", None, None, "");
    var b := Vehicle("B", "", "", "", "petrol", "", None, None, "");
    var r := EditVehicle([a, b], "A", b);
    assert r[0] == b && r[1] == b;
  }

  /** Deleting: the vehicles whose registration number differs from `regNo`, in list order. */
  function DeleteVehicle(vs: seq<Vehicle>, regNo: string): (r: seq<Vehicle>)
    ensures !HasRegNo(r, regNo)
    ensures forall other :: other != regNo ==> (HasRegNo(r, other) <==> HasRegNo(vs, other))
    ensures forall v :: multiset(r)[v] == if v.regNo == regNo then 0 else multiset(vs)[v]
    ensures Subsequence(r, vs)
  {
    var p := (v: Vehicle) => v.regNo != regNo;
    var r := Filter(p, vs);
    FilterMultiset(p, vs);
    FilterSubsequence(p, vs);
    assert forall other :: other != regNo && HasRegNo(vs, other) ==> HasRegNo(r, other) by {
      forall other | other != regNo && HasRegNo(vs, other)
        ensures HasRegNo(r, other)
      {
        var i :| 0 <= i < |vs| && vs[i].regNo == other;
        assert vs[i] in r;
      }
    }
    r
  }

  /** Deleting keeps registration numbers unique. */
  lemma DeleteKeepsUnique(vs: seq<Vehicle>, regNo: string)
    requires UniqueRegNos(vs)
    ensures UniqueRegNos(DeleteVehicle(vs, regNo))
  {
    FilterKeepsUnique((v: Vehicle) => v.regNo != regNo, vs);
  }

  /** Any selection from a list with unique keys has unique keys. */
  lemma {:induction false} FilterKeepsUnique(p: Vehicle -> bool, vs: seq<Vehicle>)
    requires UniqueRegNos(vs)
    ensures UniqueRegNos(Filter(p, vs))
    decreases |vs|
  {
    if vs != [] {
      var rest := Filter(p, vs[1..]);
      FilterKeepsUnique(p, vs[1..]);
      if p(vs[0]) {
        forall j | 0 <= j < |rest|
          ensures rest[j].regNo != vs[0].regNo
        {
          assert rest[j] in vs[1..];
        }
        var r := [vs[0]] + rest;
        assert forall j :: 1 <= j < |r| ==> r[j] == rest[j - 1];
      }
    }
  }
}

=== FILE: wrappers.dfy ===
/** Optional values: a field that may be missing or empty in a stored record. */
module Wrappers {

  datatype Option<+T> = None | Some(value: T) {

    /** The carried value, or `default` when there is none (JavaScript's `x || default`). */
    function GetOr(default: T): T {
      match this
      case Some(v) => v
      case None => default
    }
  }
}
